=== FILE: README.md ===
# homebridge-ble switch: a Dafny model

This project models the core of the homebridge-ble plugin. That core is the
connection and characteristic-binding logic of the BLE switch accessory, the
platform's discovery pipeline that feeds it, and the configuration validation
that gates the whole setup.

- `wrappers.dfy` (`Wrappers`): `Option`, the model's `null`/`undefined`.
- `seqs.dfy` (`Seqs`): order-preserving filter and flat-map over sequences, the
  shape of the plugin's nested `for … of` loops.
- `uuid.dfy` (`Uuid`): id normalisation. Every `-` is removed, then the string is
  lower-cased (ASCII only). It also holds the first-match search used to compare
  a configured id with the ids the BLE library reports.
- `ble.dfy` (`Ble`): what the plugin sees of the BLE library: peripheral states,
  discovered characteristics, byte buffers, discovery outcomes, and the one list
  of library calls that both the switch sessions and the platform issue.
- `config.dfy` (`Config`): the accessory configuration record. The
  class-validator rules appear twice: as a declarative predicate, and as the
  list of violations the validator reports. A lemma proves the two agree.
- `switch.dfy` (`Switch`): one switch session as an immutable record. The record
  holds the peripheral it drives, the configured characteristic id, the peripheral state, the reconnect-interval field, the intervals still
  live in the runtime, the bound characteristic, and the attached data
  listeners. Each handler is a pure transition:
  - `_ble_connect`;
  - the 'disconnect' and 'connect' handlers;
  - an interval tick;
  - `_ble_initialize`;
  - the readiness gate;
  - `setOn`, `getOn` and `onData`.

  Every BLE library result is a parameter. This includes the peripheral state
  the library has set when it emits 'connect'. Each transition returns the
  library calls it issues, in order.
- `platform.dfy` (`Platform`):
  - the launch gate on validation;
  - the adapter 'stateChange' handler;
  - the 'discover' handler with its nested match loops;
  - `processPerpheral`;
  - the cache replacement of `discoverDevices`.

The session invariant `Switch.Inv` has two parts:
- The reconnect field references every live interval. So at most one interval
  exists and none is leaked.
- The bound characteristic is the only one that carries a data listener, and it
  carries exactly one.

Every handler preserves the invariant, and so does any sequence of events after
construction.

The model follows the code in these respects:
- The 'disconnect' handler keeps the bound characteristic. The session stops
  being ready only because the state is no longer `connected`.
- A connect attempt that finds the peripheral still `connecting` after
  `cancelConnect` returns false and arms no retry interval. The pending
  connection's own 'connect' event, which carries the state the library has
  set, then initialises the session.
- There are only three connection states. Readiness is `connected` plus a
  bound characteristic, not a state of its own.
- There is no polling mode, no settle delay after a disconnect, and no shutdown
  operation. `intervalForUpdating` is validated but never read.

## Model

| member | source | states |
|---|---|---|
| `Uuid.StripHyphens` | src/accessories/switch.accessory.ts:273 | the result has no `-` and holds exactly the input's other characters (same multiset); it is never longer than the input |
| `Uuid.Normalize` | src/accessories/switch.accessory.ts:273 | the normalised id has no hyphen and no upper-case letter, and is exactly as long as the id with its hyphens removed |
| `Uuid.NormalizeConcat` | src/accessories/switch.accessory.ts:273 | normalisation works character by character: it distributes over concatenation |
| `Uuid.NormalizeFixedPoint` | src/platform.ts:139 | a string is left unchanged by normalisation iff it has no hyphen and no upper-case letter |
| `Uuid.NormalizeIdempotent` | src/platform.ts:89 | normalising an already normalised id changes nothing |
| `Uuid.NormalizeOrderIrrelevant` | src/accessories/switch.accessory.ts:273 | stripping hyphens then lower-casing gives the same result as the opposite order |
| `Uuid.OnlyNormalIdsMatch` | src/accessories/switch.accessory.ts:275 | a reported id containing a hyphen or an upper-case letter never equals a normalised configured id |
| `Uuid.FirstIndex` | src/accessories/switch.accessory.ts:271-281 | the index found holds the target and no earlier element does; nothing is found iff the target is absent |
| `Ble.FirstMatching` | src/accessories/switch.accessory.ts:271-287 | the first characteristic whose uuid equals the normalised configured id; none iff no characteristic matches |
| `Config.Broken` | src/config.model.ts:14-33 | a rule is reported for an accessory iff the accessory breaks it: name, deviceId, serviceId and characteristicId must be non-empty, type must be `switch`, and an interval, if present, must be at least 1000 |
| `Config.ValidateExact` | src/config.model.ts:8-12 | validation of the nested list reports violation (i, rule) iff accessory i exists and breaks that rule |
| `Config.ValidIffNoViolations` | src/config.model.ts:10-11 | the validator reports nothing iff every accessory of the list satisfies every rule |
| `Config.AbsentAccessoriesValid` | src/config.model.ts:11 | a configuration without an accessory list gets the empty default and is valid |
| `Config.ViolationsFrom` | src/config.model.ts:10 | every violation reported for a slice of the list names an accessory of that slice, and that accessory breaks the rule |
| `Config.Validate` | src/platform.ts:45 | every reported violation names an existing accessory that breaks the rule |
| `Switch.BleConnect` | src/accessories/switch.accessory.ts:199-245 | the result is true iff the peripheral was already connected, or `cancelConnect` returned leaving it not `connecting` and `connectAsync` resolved. Already connected: no library call, nothing changes. Still `connecting` after `cancelConnect`: false, with no `connectAsync`. `connectAsync` is issued iff the peripheral was not connected and the cancel returned leaving it not `connecting`, and only right after the cancel; every call names the session's peripheral. Success leaves the peripheral connected. A thrown error arms a 10 s interval only when none is armed. The bound characteristic, the listeners and the configuration are kept. The invariant is preserved |
| `Switch.Ready` | src/accessories/switch.accessory.ts:180-197 | the gate passes iff the peripheral is connected and a characteristic is bound; under the invariant, the bound characteristic then carries exactly one data listener |
| `Switch.Arm` | src/accessories/switch.accessory.ts:230-240 | arming adds one fresh 10 s interval, held by the field; under the invariant it becomes the only live interval. Connection state, characteristic, listeners, peripheral and configured id are kept |
| `Switch.Disarm` | src/accessories/switch.accessory.ts:52-56 | clearing empties the field and never adds a live interval; under the invariant no interval is left live. Connection state, characteristic, listeners, peripheral and configured id are kept |
| `Switch.ConnectIdempotent` | src/accessories/switch.accessory.ts:205-210 | after any connect that returned true, another connect returns true and issues no library call, whatever the library would do |
| `Switch.Create` | src/accessories/switch.accessory.ts:87-90 | the constructor runs one connect: no library call if the peripheral is already connected, otherwise `cancelConnect` first, and `connectAsync` iff the cancel returned leaving the peripheral not `connecting`. The resulting state is `connected` after a resolved connect, `connecting` when the cancel leaves it so, and otherwise what the cancel left. A retry interval (the first handle, 10 s) is armed iff that connect throws. The session records the given peripheral and characteristic id, has no characteristic and no listener, satisfies the invariant, and has at most one live interval |
| `Switch.OnDisconnect` | src/accessories/switch.accessory.ts:48-67 | the old interval is cleared and exactly one new 10 s interval, distinct from every live one, is the only live interval; the session is not ready; the characteristic, listeners, peripheral and configured id are kept |
| `Switch.OnConnect` | src/accessories/switch.accessory.ts:69-85 | ignored unless the peripheral is connected. Otherwise the reconnect interval is cleared (no live interval remains) and initialisation runs. A bound characteristic is unsubscribed and stripped of listeners before discovery; the number of calls is fixed by what was bound before and after, and a newly bound characteristic is unsubscribed and subscribed last. The peripheral and configured id are kept. A characteristic is bound, and the session becomes ready, iff discovery succeeded and some characteristic matches; the one bound is the first match |
| `Switch.OnTick` | src/accessories/switch.accessory.ts:58-66 | a cleared interval does nothing. A live one issues exactly the calls of one connect and leaves the state that connect leaves. It never adds intervals. The characteristic, listeners, peripheral and configured id are unchanged. Its successful connect clears the reconnect interval. A failed connect keeps exactly that interval |
| `Switch.Initialize` | src/accessories/switch.accessory.ts:247-319 | the old characteristic is unsubscribed and stripped of listeners before discovery. The peripheral, connection state and configured id are kept. The bound characteristic is the first discovered one whose uuid is the normalised configured id. It is bound iff discovery succeeded and some characteristic matches; then it is unsubscribed and subscribed last. When nothing is bound (discovery error, empty list, no match), no call follows discovery. The invariant is preserved |
| `Switch.DecodeEncode` | src/accessories/switch.accessory.ts:115-116 | decoding the byte written for a value gives that value back |
| `Switch.EncodeSwitch` | src/accessories/switch.accessory.ts:115-116 | the written buffer is one byte: 1 for on, 0 for off |
| `Switch.DecodeSwitch` | src/accessories/switch.accessory.ts:175 | an empty buffer cannot be decoded; otherwise the value is on iff byte 0 is 1 |
| `Switch.DecodeReadsFirstByte` | src/accessories/switch.accessory.ts:175 | a non-empty buffer decodes to on iff byte 0 is 1; later bytes are ignored |
| `Switch.SetOn` | src/accessories/switch.accessory.ts:102-127 | past the readiness gate, exactly one write of the one-byte encoding to the bound characteristic, with a response expected; otherwise no call. The session is unchanged whether or not the write fails |
| `Switch.GetOn` | src/accessories/switch.accessory.ts:142-166 | not ready: false and no read. Ready: exactly one read; undefined iff the read fails or the buffer is empty. It never returns true |
| `Switch.GetOnIntended` | src/accessories/switch.accessory.ts:142-166 | as `getOn`, but a successful read returns the decoded byte 0 |
| `Switch.SetThenGetRoundTrip` | src/accessories/switch.accessory.ts:102-166 | with a peripheral that echoes writes, the corrected read after `setOn(v)` returns v |
| `Switch.SetThenGetAsWrittenLosesOn` | src/accessories/switch.accessory.ts:144-165 | with the same echoing peripheral, the read as written returns false after `setOn(true)` |
| `Switch.OnData` | src/accessories/switch.accessory.ts:168-178 | data that is not a notification is ignored; a notification pushes v iff it decodes to v; an empty notification rejects |
| `Switch.NotificationRoundTrip` | src/accessories/switch.accessory.ts:170-175 | a notification carrying the byte written for v pushes exactly v |
| `Switch.RunPreservesInv` | src/accessories/switch.accessory.ts:52-66 | every sequence of events preserves the invariant: no leaked interval, and one listener on the bound characteristic only |
| `Switch.RunKeepsConfig` | src/accessories/switch.accessory.ts:47-90 | no sequence of events changes the peripheral a session drives or the characteristic id it binds |
| `Switch.AtMostOneReconnectTimer` | src/accessories/switch.accessory.ts:230-241 | after construction and any events, at most one interval is live; it is the one the field holds; at most one data listener is attached |
| `Platform.Launch` | src/platform.ts:43-52 | the handlers are registered iff the configuration is valid; the accessories are the configured list or the empty default; nothing is scanned or recorded yet |
| `Platform.OnStateChange` | src/platform.ts:121-127 | scanning starts (one call) iff the handlers are registered and the adapter became powered on; otherwise nothing changes |
| `Platform.Process` | src/platform.ts:56-118 | connect, then discover only if connected. Nothing else changes but `bleDevices`. It gains the entry (accessory, peripheral, normalised characteristic id) iff connect succeeded, discovery returned a non-empty list, some characteristic matched, and the id is a non-empty string |
| `Platform.ProcessAppendsAtMostOne` | src/platform.ts:112-117 | one processing appends at most one entry, and exactly one iff the recording conditions hold |
| `Platform.MatchesFor` | src/platform.ts:137-141 | an accessory is matched against an advertised uuid iff its normalised service id equals that uuid; there is a match iff some accessory has that id |
| `Platform.MatchesForConcat` | src/platform.ts:137 | the matches keep configuration order: those of a concatenated list are those of the first part followed by those of the second |
| `Platform.Matches` | src/platform.ts:133-141 | an accessory is in the nested loops' matches iff it is configured and the peripheral advertises its normalised service id; there is a match iff some pair matches |
| `Platform.MatchesForSingle` | src/platform.ts:137-141 | against one accessory, the inner loop yields that accessory once if its normalised service id is the uuid, and nothing otherwise |
| `Platform.MatchesSingle` | src/platform.ts:135-137 | for one advertised uuid, the nested loops yield exactly the inner loop's matches |
| `Platform.MatchesConcat` | src/platform.ts:135 | the outer loop keeps advertisement order: the matches of concatenated uuid lists are those of the first list followed by those of the second. With the two lemmas above and `MatchesForConcat`, every matched pair occurs once, in loop order |
| `Platform.ProcessMatches` | src/platform.ts:141-165 | the first call is the scan stop; every connect comes right after a scan stop; a non-connectable peripheral ends the handler after that stop |
| `Platform.ProcessMatchesEveryMatch` | src/platform.ts:141-163 | once some device is recorded, a connectable peripheral has every match processed, in loop order, the i-th with the i-th outcome: the calls are a scan stop and one processing per match. The entries appended are exactly the matches whose outcome meets the recording conditions, in order |
| `Platform.ProcessMatchesFromEmpty` | src/platform.ts:155-163 | with no device recorded yet, a first match that is not recorded restarts scanning as the last call and ends the handler; one that is recorded leads to every match being processed as above |
| `Platform.ProcessMatchesDevices` | src/platform.ts:155-163 | scanning is on at the end iff no device is recorded. A restart is the last call and happens only with an empty list. New entries come from the matched accessories |
| `Platform.OnDiscover` | src/platform.ts:129-167 | unregistered handlers, a missing uuid list, or an advertisement in which no uuid matches an accessory (an empty list included): no effect at all, state unchanged; otherwise the first call stops scanning and each connect follows a scan stop |
| `Platform.OnDiscoverActsIffMatch` | src/platform.ts:133-145 | the handler calls the library iff an advertised uuid equals some accessory's normalised service id |
| `Platform.OnDiscoverScanning` | src/platform.ts:145-163 | on a match, a non-connectable peripheral only stops scanning; for a connectable one, scanning is on at the end iff no device is recorded |
| `Platform.OnDiscoverRecords` | src/platform.ts:155-163 | `bleDevices` only grows, by entries for this peripheral and a configured accessory it advertises; scanning restarts only while the list is empty |
| `Platform.OnDiscoverEveryMatch` | src/platform.ts:129-163 | once a device is recorded, the handler processes every matched pair of a connectable peripheral in loop order and records exactly those meeting the recording conditions |
| `Platform.MatchedIsAdvertised` | src/platform.ts:139-141 | a matched accessory is configured and advertised by the peripheral |
| `Platform.DiscoverOne` | src/platform.ts:209-246 | the last call registers a new accessory with the config's name and generated uuid. A cached accessory with that uuid is unregistered just before iff one exists |
| `Platform.DiscoverDevices` | src/platform.ts:203-248 | one registration per configured accessory, in order. Every unregister names a cached accessory and is followed at once by a registration with the same uuid. Every registration whose uuid is cached comes right after the unregister of an accessory with that uuid |

## Left out

- The BLE library itself: scanning, connecting, `cancelConnect`, discovery, read, write and subscribe. The results of connect, cancel, discovery, read and write are parameters of the transitions. All calls are recorded, not executed.
- Platform.OnDiscover: `stopScanningAsync` (platform.ts:145) and `startScanningAsync` (platform.ts:125, 161) are assumed to resolve. A rejected stop would end the 'discover' handler before `processPerpheral` runs, and a rejected start would leave scanning off; neither path is modelled.
- Platform.OnStateChange: assumes `startScanningAsync` resolves, for the same reason.
- Interleaving of asynchronous handlers across `await` points: each handler runs to completion as one transition.
- Real timer timing: an interval is a live handle with its 10 000 ms period, and a firing is an explicit tick event.
- Homebridge service and characteristic registration, `updateValue`, the accessory information and all logging: host plumbing. `onData`'s push is its result value.
- The subscribe and unsubscribe callbacks only log, so they are left out. Binding does not depend on them.
- Library peripheral states other than `connected` and `connecting` (such as `disconnecting` or `error`) are read as `Disconnected`, because the code only tests for those two.
- A missing `characteristics` field in a discovery result is treated like an empty list. The code treats both alike.
- class-validator internals are left out: how it treats plain objects that are not class instances, the nesting and grouping of its error objects, and values of the wrong JavaScript type. Violations are a flat list of (index, rule), and absent or null strings are modelled as the empty string.
- Config.Broken: `intervalForUpdating` is a JavaScript number but is modelled as an integer. Fractional values, `NaN` and non-numeric values are not modelled. For `NaN` and non-numbers the `Min(1000)` rule fails.
- `toLowerCase` beyond ASCII letters.
- The host's uuid generator is an uninterpreted function parameter of `DiscoverDevices`.
- `configureAccessory` only appends to the cache, so the cache is the `cache` parameter of `DiscoverDevices`.
- `discoverDevices` is never called (its call is commented out), and its constructor call passes no device. The model treats it as a standalone operation.
- Commented-out code in both files.
- Polling, settle delays and shutdown: the code has none of them.

## Findings

| source | as written | input that shows it | evidently intended | confidence | as-written member | corrected member |
|---|---|---|---|---|---|---|
| src/accessories/switch.accessory.ts:151 | `const status` inside the `try` shadows the outer `let status = false`, so a successful read always resolves to false | a ready session whose characteristic reads back byte 0x01, e.g. after `setOn(true)` | resolve to the decoded status (`byte0 == 1`) | high; not executed | `Switch.GetOn`, `Switch.SetThenGetAsWrittenLosesOn` | `Switch.GetOnIntended`, `Switch.SetThenGetRoundTrip` |

=== FILE: ble.dfy ===
/**
  What the plugin sees of the BLE library (noble): peripheral connection states,
  discovered characteristics, byte buffers and the outcomes of asynchronous calls.
  The library's behaviour itself is not modelled; its results are inputs.
 */
module Ble {
  import Uuid
  import opened Wrappers

  newtype Byte = x: int | 0 <= x < 256

  /** `peripheral.state` as far as the plugin distinguishes it: the code only tests for
      'connected' and 'connecting', so every other library state reads as Disconnected. */
  datatype PeripheralState = Disconnected | Connecting | Connected

  /** A discovered characteristic: an object identity (`handle`) and its reported uuid. */
  datatype Characteristic = Characteristic(handle: nat, uuid: string)

  /** Result of `discoverSomeServicesAndCharacteristicsAsync([])`; a missing
      `characteristics` field is reported as an empty list. */
  datatype DiscoveryOutcome = DiscoveryThrew | Discovered(characteristics: seq<Characteristic>)

  /** A call into the BLE library. Peripheral calls name the peripheral; characteristic
      calls name the characteristic's handle. */
  datatype BleCall =
    | StartScanning
    | StopScanning
    | CancelConnect(peripheral: nat)
    | ConnectAsync(peripheral: nat)
    | DiscoverAll(peripheral: nat)
    | Unsubscribe(handle: nat)
    | RemoveAllListeners(handle: nat)
    | Subscribe(handle: nat)
    | Write(handle: nat, data: seq<Byte>, withoutResponse: bool)
    | Read(handle: nat)

  function UuidsOf(cs: seq<Characteristic>): (r: seq<string>)
    ensures |r| == |cs|
    ensures forall i :: 0 <= i < |cs| ==> r[i] == cs[i].uuid
  {
    seq(|cs|, i requires 0 <= i < |cs| => cs[i].uuid)
  }

  /** Position of the first characteristic whose uuid is the normalised configured id. */
  function FirstMatching(cs: seq<Characteristic>, configuredId: string): (r: Option<nat>)
    ensures r.Some? ==> r.value < |cs| && Uuid.SameId(configuredId, cs[r.value].uuid)
    ensures r.Some? ==> forall j :: 0 <= j < r.value ==> !Uuid.SameId(configuredId, cs[j].uuid)
    ensures r.None? <==> forall j :: 0 <= j < |cs| ==> !Uuid.SameId(configuredId, cs[j].uuid)
  {
    var r := Uuid.FirstIndex(UuidsOf(cs), Uuid.Normalize(configuredId));
    assert r.None? ==> forall j :: 0 <= j < |cs| ==> UuidsOf(cs)[j] != Uuid.Normalize(configuredId);
    r
  }
}

=== FILE: config.dfy ===
/**
  The platform configuration and the validation rules declared on it with
  class-validator decorators, as a predicate and as the list of violations the
  validator reports.
 */
module Config {
  import opened Wrappers

  /** The only member of the accessory type enumeration. */
  const SwitchType: string := "switch"

  /** Smallest accepted `intervalForUpdating`, in milliseconds. */
  const MinUpdateInterval: int := 1000

  /**
    One entry of `accessories`. A string field that is absent or null is represented
    by the empty string: the not-empty rule rejects all three alike.
   */
  datatype AccessoryConfig = AccessoryConfig(
    name: string,
    kind: string,
    deviceId: string,
    serviceId: string,
    characteristicId: string,
    intervalForUpdating: Option<int>)

  /** The user's platform configuration; `accessories` may be left out. */
  datatype PlatformConfig = PlatformConfig(accessories: Option<seq<AccessoryConfig>>)

  /** One validation rule per decorated property. */
  datatype Rule =
    | NameNotEmpty
    | TypeIsEnumMember
    | DeviceIdNotEmpty
    | ServiceIdNotEmpty
    | CharacteristicIdNotEmpty
    | IntervalAtLeastMin

  /** Whether accessory `a` satisfies `rule`. */
  predicate Satisfies(a: AccessoryConfig, rule: Rule) {
    match rule
    case NameNotEmpty => a.name != ""
    case TypeIsEnumMember => a.kind == SwitchType
    case DeviceIdNotEmpty => a.deviceId != ""
    case ServiceIdNotEmpty => a.serviceId != ""
    case CharacteristicIdNotEmpty => a.characteristicId != ""
    case IntervalAtLeastMin =>
      a.intervalForUpdating.None? || a.intervalForUpdating.value >= MinUpdateInterval
  }

  predicate AccessoryValid(a: AccessoryConfig) {
    forall rule: Rule :: Satisfies(a, rule)
  }

  /** The accessories after the user's configuration is spread over the defaults:
      a missing list becomes the empty list. */
  function Accessories(c: PlatformConfig): seq<AccessoryConfig> {
    c.accessories.GetOr([])
  }

  /** Every listed accessory is valid. */
  predicate ConfigValid(c: PlatformConfig) {
    forall i :: 0 <= i < |Accessories(c)| ==> AccessoryValid(Accessories(c)[i])
  }

  /** `[rule]` when `broken`, else nothing. */
  function Flag(broken: bool, rule: Rule): (r: seq<Rule>)
    ensures forall x :: x in r <==> broken && x == rule
  {
    if broken then [rule] else []
  }

  /** The rules accessory `a` breaks, in declaration order. */
  function Broken(a: AccessoryConfig): (r: seq<Rule>)
    ensures forall rule: Rule :: rule in r <==> !Satisfies(a, rule)
  {
    Flag(a.name == "", NameNotEmpty)
      + Flag(a.kind != SwitchType, TypeIsEnumMember)
      + Flag(a.deviceId == "", DeviceIdNotEmpty)
      + Flag(a.serviceId == "", ServiceIdNotEmpty)
      + Flag(a.characteristicId == "", CharacteristicIdNotEmpty)
      + Flag(a.intervalForUpdating.Some? && a.intervalForUpdating.value < MinUpdateInterval, IntervalAtLeastMin)
  }

  /** A reported violation: the position of the accessory and the rule it breaks. */
  datatype Violation = Violation(index: nat, rule: Rule)

  /** The violations of the accessory at `index`, one per broken rule, in order. */
  function Tagged(index: nat, rules: seq<Rule>): (r: seq<Violation>)
    ensures forall v :: v in r <==> v.index == index && v.rule in rules
  {
    var r := seq(|rules|, k requires 0 <= k < |rules| => Violation(index, rules[k]));
    assert forall v :: v in r ==> v.index == index && v.rule in rules by {
      forall v | v in r ensures v.index == index && v.rule in rules {
        var k :| 0 <= k < |r| && r[k] == v;
        assert v.rule == rules[k];
      }
    }
    assert forall v: Violation :: v.index == index && v.rule in rules ==> v in r by {
      forall v: Violation | v.index == index && v.rule in rules ensures v in r {
        var k :| 0 <= k < |rules| && rules[k] == v.rule;
        assert r[k] == v;
      }
    }
    r
  }

  function ViolationsFrom(accs: seq<AccessoryConfig>, start: nat): (r: seq<Violation>)
    ensures forall v :: v in r ==> start <= v.index < start + |accs| && !Satisfies(accs[v.index - start], v.rule)
    decreases |accs|
  {
    if |accs| == 0 then []
    else
      var head := Tagged(start, Broken(accs[0]));
      var rest := ViolationsFrom(accs[1..], start + 1);
      assert forall v :: v in rest ==> accs[1..][v.index - (start + 1)] == accs[v.index - start];
      head + rest
  }

  /** What `validate(configModel)` reports, flattened into one list. */
  function Validate(c: PlatformConfig): (r: seq<Violation>)
    ensures forall v :: v in r ==> v.index < |Accessories(c)| && !Satisfies(Accessories(c)[v.index], v.rule)
  {
    var r := ViolationsFrom(Accessories(c), 0);
    assert forall v :: v in r ==> v.index < |Accessories(c)| && !Satisfies(Accessories(c)[v.index], v.rule) by {
      forall v | v in r ensures v.index < |Accessories(c)| && !Satisfies(Accessories(c)[v.index], v.rule) {
        ViolationsFromExact(Accessories(c), 0, v);
      }
    }
    r
  }

  lemma {:induction false} ViolationsFromExact(accs: seq<AccessoryConfig>, start: nat, v: Violation)
    ensures v in ViolationsFrom(accs, start) <==>
      start <= v.index < start + |accs| && !Satisfies(accs[v.index - start], v.rule)
    decreases |accs|
  {
    if |accs| > 0 {
      ViolationsFromExact(accs[1..], start + 1, v);
      var head := Tagged(start, Broken(accs[0]));
      var rest := ViolationsFrom(accs[1..], start + 1);
      assert ViolationsFrom(accs, start) == head + rest;
      assert v in head + rest <==> v in head || v in rest;
      if start < v.index < start + |accs| {
        assert accs[1..][v.index - (start + 1)] == accs[v.index - start];
      }
    }
  }

  /** The validator reports exactly the broken rules: a violation is listed iff the
      accessory at its index breaks its rule. */
  lemma ValidateExact(c: PlatformConfig, v: Violation)
    ensures v in Validate(c) <==> v.index < |Accessories(c)| && !Satisfies(Accessories(c)[v.index], v.rule)
  {
    ViolationsFromExact(Accessories(c), 0, v);
  }

  /** Setup proceeds iff the validator reports nothing iff every accessory is valid. */
  lemma ValidIffNoViolations(c: PlatformConfig)
    ensures |Validate(c)| == 0 <==> ConfigValid(c)
  {
    var accs := Accessories(c);
    if |Validate(c)| == 0 {
      forall i, rule: Rule | 0 <= i < |accs|
        ensures Satisfies(accs[i], rule)
      {
        ValidateExact(c, Violation(i, rule));
      }
    } else {
      var v := Validate(c)[0];
      ValidateExact(c, v);
    }
  }

  /** A configuration without an `accessories` list is valid. */
  lemma AbsentAccessoriesValid(c: PlatformConfig)
    requires c.accessories.None?
    ensures ConfigValid(c) && |Validate(c)| == 0
  {
  }
}

=== FILE: platform.dfy ===
/**
  The platform: configuration gate at launch, the adapter 'stateChange' and
  'discover' handlers, `processPerpheral`, and the cache replacement of
  `discoverDevices`. Library and host calls are returned in order; their
  outcomes are parameters.
 */
module Platform {
  import opened Wrappers
  import Uuid
  import opened Ble
  import Config
  import Seqs

  /** The adapter states the library reports. */
  datatype AdapterState = Unknown | Resetting | Unsupported | Unauthorized | PoweredOff | PoweredOn

  /** A discovered peripheral. `serviceUuids` is None when the advertisement or its list is missing. */
  datatype Peripheral = Peripheral(id: nat, serviceUuids: Option<seq<string>>, connectable: bool)

  /** An entry of `bleDevices`. `characteristic` is the normalised configured id, not a
      characteristic object. */
  datatype BleDevice = BleDevice(accessory: Config.AccessoryConfig, peripheral: Peripheral, characteristic: string)

  datatype PlatformState = PlatformState(
    listening: bool,                          // the adapter handlers are registered
    accessories: seq<Config.AccessoryConfig>, // `configModel.accessories`
    scanning: bool,
    bleDevices: seq<BleDevice>)

  /** What `connectAsync` and the characteristic discovery of one `processPerpheral` did. */
  datatype ProcessOutcome = ProcessOutcome(connected: bool, discovery: DiscoveryOutcome)

  datatype Step = Step(state: PlatformState, calls: seq<BleCall>)

  /** The 'didFinishLaunching' setup: the configuration is spread over the defaults and
      validated; the adapter handlers are registered only when validation reports nothing. */
  function Launch(cfg: Config.PlatformConfig): (st: PlatformState)
    ensures st.listening <==> Config.ConfigValid(cfg)
    ensures st.accessories == Config.Accessories(cfg)
    ensures !st.scanning && st.bleDevices == []
  {
    Config.ValidIffNoViolations(cfg);
    PlatformState(|Config.Validate(cfg)| == 0, Config.Accessories(cfg), false, [])
  }

  /** The 'stateChange' handler. */
  function OnStateChange(st: PlatformState, adapter: AdapterState): (r: Step)
    ensures r.calls != [] <==> st.listening && adapter == PoweredOn
    ensures r.calls != [] ==> r.calls == [StartScanning] && r.state == st.(scanning := true)
    ensures r.calls == [] ==> r.state == st
  {
    if st.listening && adapter == PoweredOn then Step(st.(scanning := true), [StartScanning])
    else Step(st, [])
  }

  /** The three conditions under which `processPerpheral` records a device, the third being
      that the normalised id is a non-empty (truthy) string. */
  predicate Records(acc: Config.AccessoryConfig, o: ProcessOutcome) {
    && o.connected
    && o.discovery.Discovered?
    && |o.discovery.characteristics| > 0
    && (exists j :: 0 <= j < |o.discovery.characteristics| &&
                    Uuid.SameId(acc.characteristicId, o.discovery.characteristics[j].uuid))
    && Uuid.Normalize(acc.characteristicId) != ""
  }

  /** `processPerpheral(peripheral, accessory)`. */
  function Process(st: PlatformState, per: Peripheral, acc: Config.AccessoryConfig, o: ProcessOutcome): (r: Step)
    ensures r.calls == [ConnectAsync(per.id)] || r.calls == [ConnectAsync(per.id), DiscoverAll(per.id)]
    ensures r.calls == [ConnectAsync(per.id)] <==> !o.connected
    ensures r.state.(bleDevices := st.bleDevices) == st
    ensures Records(acc, o) ==>
      r.state.bleDevices == st.bleDevices + [BleDevice(acc, per, Uuid.Normalize(acc.characteristicId))]
    ensures !Records(acc, o) ==> r.state.bleDevices == st.bleDevices
  {
    var connect := [ConnectAsync(per.id)];
    if !o.connected then Step(st, connect)
    else
      var calls := connect + [DiscoverAll(per.id)];
      match o.discovery
      case DiscoveryThrew => Step(st, calls)
      case Discovered(cs) =>
        if |cs| == 0 then Step(st, calls)
        else
          match FirstMatching(cs, acc.characteristicId) {
            case None => Step(st, calls)
            case Some(_) =>
              var characteristic := Uuid.Normalize(acc.characteristicId);
              if characteristic == "" then Step(st, calls)
              else Step(st.(bleDevices := st.bleDevices + [BleDevice(acc, per, characteristic)]), calls)
          }
  }

  /** `processPerpheral` appends at most one entry. */
  lemma ProcessAppendsAtMostOne(st: PlatformState, per: Peripheral, acc: Config.AccessoryConfig, o: ProcessOutcome)
    ensures var r := Process(st, per, acc, o);
      |r.state.bleDevices| <= |st.bleDevices| + 1
      && (|r.state.bleDevices| == |st.bleDevices| + 1 <==> Records(acc, o))
  {
  }

  /** Some advertised service uuid equals some accessory's normalised service id. */
  predicate HasMatch(uuids: seq<string>, accs: seq<Config.AccessoryConfig>) {
    exists i, j :: 0 <= i < |uuids| && 0 <= j < |accs| && Uuid.SameId(accs[j].serviceId, uuids[i])
  }

  /** Whether the inner loop matches accessory `a` against the advertised uuid `u`. */
  function MatchesUuid(u: string): Config.AccessoryConfig -> bool {
    (a: Config.AccessoryConfig) => Uuid.SameId(a.serviceId, u)
  }

  /** The accessories the inner loop matches against one advertised uuid, in order. */
  function MatchesFor(u: string, accs: seq<Config.AccessoryConfig>): (r: seq<Config.AccessoryConfig>)
    ensures forall a :: a in r <==> a in accs && Uuid.SameId(a.serviceId, u)
    ensures |r| > 0 <==> exists a :: a in accs && Uuid.SameId(a.serviceId, u)
  {
    Seqs.FilterMembers(MatchesUuid(u), accs);
    var r := Seqs.Filter(MatchesUuid(u), accs);
    assert |r| > 0 ==> r[0] in r;
    r
  }

  /** Keeping the matching accessories preserves their configuration order: the matches
      against `u` of `a + b` are those of `a` followed by those of `b`. */
  lemma MatchesForConcat(u: string, a: seq<Config.AccessoryConfig>, b: seq<Config.AccessoryConfig>)
    ensures MatchesFor(u, a + b) == MatchesFor(u, a) + MatchesFor(u, b)
  {
    Seqs.FilterConcat(MatchesUuid(u), a, b);
  }

  /** Against a one-accessory list, the filter keeps the accessory iff it matches. */
  lemma MatchesForSingle(u: string, x: Config.AccessoryConfig)
    ensures MatchesFor(u, [x]) == if Uuid.SameId(x.serviceId, u) then [x] else []
  {
    assert [x][1..] == [];
    assert Seqs.Filter(MatchesUuid(u), [x]) ==
      (if MatchesUuid(u)(x) then [x] else []) + Seqs.Filter(MatchesUuid(u), []);
  }

  /** The inner loop's matches for uuid `u`, as a function of `u`. */
  function MatchesIn(accs: seq<Config.AccessoryConfig>): string -> seq<Config.AccessoryConfig> {
    (u: string) => MatchesFor(u, accs)
  }

  /** Membership in both loops' matches, in terms of the inner loop's. */
  lemma PairsMembers(uuids: seq<string>, accs: seq<Config.AccessoryConfig>)
    ensures var r := Seqs.FlatMap(MatchesIn(accs), uuids);
      && (forall a :: a in r ==> a in accs && exists i :: 0 <= i < |uuids| && Uuid.SameId(a.serviceId, uuids[i]))
      && (forall i, a :: 0 <= i < |uuids| && a in accs && Uuid.SameId(a.serviceId, uuids[i]) ==> a in r)
      && (|r| > 0 <==> HasMatch(uuids, accs))
  {
    var r := Seqs.FlatMap(MatchesIn(accs), uuids);
    Seqs.FlatMapMembers(MatchesIn(accs), uuids);
    forall a | a in r
      ensures a in accs && exists i :: 0 <= i < |uuids| && Uuid.SameId(a.serviceId, uuids[i])
    {
      var i :| 0 <= i < |uuids| && a in MatchesIn(accs)(uuids[i]);
      assert a in MatchesFor(uuids[i], accs);
    }
    forall i, a | 0 <= i < |uuids| && a in accs && Uuid.SameId(a.serviceId, uuids[i])
      ensures a in r
    {
      assert a in MatchesIn(accs)(uuids[i]);
    }
    if |r| > 0 {
      assert r[0] in r;
      var i :| 0 <= i < |uuids| && Uuid.SameId(r[0].serviceId, uuids[i]);
      var j :| 0 <= j < |accs| && accs[j] == r[0];
    }
    if HasMatch(uuids, accs) {
      var i, j :| 0 <= i < |uuids| && 0 <= j < |accs| && Uuid.SameId(accs[j].serviceId, uuids[i]);
      assert accs[j] in accs;
    }
  }

  /** Every (advertised uuid, accessory) pair the nested loops match, in loop order. */
  function Matches(uuids: seq<string>, accs: seq<Config.AccessoryConfig>): (r: seq<Config.AccessoryConfig>)
    ensures forall a :: a in r ==> a in accs && exists i :: 0 <= i < |uuids| && Uuid.SameId(a.serviceId, uuids[i])
    ensures forall i, a :: 0 <= i < |uuids| && a in accs && Uuid.SameId(a.serviceId, uuids[i]) ==> a in r
    ensures |r| > 0 <==> HasMatch(uuids, accs)
  {
    PairsMembers(uuids, accs);
    Seqs.FlatMap(MatchesIn(accs), uuids)
  }

  /** For one advertised uuid, the nested loops' matches are the inner loop's. */
  lemma MatchesSingle(u: string, accs: seq<Config.AccessoryConfig>)
    ensures Matches([u], accs) == MatchesFor(u, accs)
  {
    assert [u][1..] == [];
    assert Seqs.FlatMap(MatchesIn(accs), [u]) == MatchesIn(accs)(u) + Seqs.FlatMap(MatchesIn(accs), []);
  }

  /** The outer loop runs over the advertised uuids in order: the matches of `a + b` are
      those of `a` followed by those of `b`. With `MatchesForConcat`, `MatchesForSingle`
      and `MatchesSingle` this fixes the order and the multiplicity of every pair. */
  lemma MatchesConcat(a: seq<string>, b: seq<string>, accs: seq<Config.AccessoryConfig>)
    ensures Matches(a + b, accs) == Matches(a, accs) + Matches(b, accs)
  {
    Seqs.FlatMapConcat(MatchesIn(accs), a, b);
  }

  /** Every connect is issued right after scanning is stopped. */
  predicate ConnectsAfterStop(calls: seq<BleCall>) {
    forall i :: 0 <= i < |calls| && calls[i].ConnectAsync? ==> i > 0 && calls[i - 1] == StopScanning
  }

  lemma ConnectsAfterStopConcat(a: seq<BleCall>, b: seq<BleCall>)
    requires ConnectsAfterStop(a) && ConnectsAfterStop(b)
    requires |b| == 0 || !b[0].ConnectAsync?
    ensures ConnectsAfterStop(a + b)
  {
    forall i | 0 <= i < |a + b| && (a + b)[i].ConnectAsync?
      ensures i > 0 && (a + b)[i - 1] == StopScanning
    {
      if i >= |a| {
        assert (a + b)[i] == b[i - |a|];
        if i > |a| {
          assert (a + b)[i - 1] == b[i - 1 - |a|];
        }
      }
    }
  }

  /** New entries of `bleDevices` all name peripheral `per`, an accessory of `accs`, and
      that accessory's normalised characteristic id. */
  predicate AppendedFor(before: seq<BleDevice>, after: seq<BleDevice>, per: Peripheral, accs: seq<Config.AccessoryConfig>) {
    && |before| <= |after|
    && after[..|before|] == before
    && forall i :: |before| <= i < |after| ==>
         && after[i].peripheral == per
         && after[i].accessory in accs
         && after[i].characteristic == Uuid.Normalize(after[i].accessory.characteristicId)
  }

  /**
    The body of the nested loops of the 'discover' handler, run over the matched
    accessories `ms`; the k-th `processPerpheral` of this handler gets outcome `outcomes(k)`.
   */
  function ProcessMatches(st: PlatformState, per: Peripheral, ms: seq<Config.AccessoryConfig>, k: nat, outcomes: nat -> ProcessOutcome): (r: Step)
    ensures |ms| == 0 ==> r == Step(st, [])
    ensures |ms| > 0 ==> |r.calls| > 0 && r.calls[0] == StopScanning
    ensures |ms| > 0 && !per.connectable ==> r == Step(st.(scanning := false), [StopScanning])
    ensures ConnectsAfterStop(r.calls)
    ensures r.state.listening == st.listening && r.state.accessories == st.accessories
    decreases |ms|
  {
    if |ms| == 0 then Step(st, [])
    else
      var stopped := st.(scanning := false);
      if !per.connectable then Step(stopped, [StopScanning])
      else
        var p := Process(stopped, per, ms[0], outcomes(k));
        var head := [StopScanning] + p.calls;
        assert ConnectsAfterStop(head);
        if |p.state.bleDevices| == 0 then
          ConnectsAfterStopConcat(head, [StartScanning]);
          Step(p.state.(scanning := true), head + [StartScanning])
        else
          var rest := ProcessMatches(p.state, per, ms[1..], k + 1, outcomes);
          ConnectsAfterStopConcat(head, rest.calls);
          Step(rest.state, head + rest.calls)
  }

  lemma AppendedForTrans(a: seq<BleDevice>, b: seq<BleDevice>, c: seq<BleDevice>, per: Peripheral, small: seq<Config.AccessoryConfig>, accs: seq<Config.AccessoryConfig>)
    requires AppendedFor(a, b, per, accs) && AppendedFor(b, c, per, small)
    requires forall x :: x in small ==> x in accs
    ensures AppendedFor(a, c, per, accs)
  {
    assert c[..|a|] == c[..|b|][..|a|];
  }

  lemma ProcessAppendedFor(st: PlatformState, per: Peripheral, ms: seq<Config.AccessoryConfig>, o: ProcessOutcome)
    requires |ms| > 0
    ensures AppendedFor(st.bleDevices, Process(st, per, ms[0], o).state.bleDevices, per, ms)
  {
    var after := Process(st, per, ms[0], o).state.bleDevices;
    assert after[..|st.bleDevices|] == st.bleDevices;
  }

  /** The library calls of one `processPerpheral`: connect, then discover if connected. */
  function ProcessCalls(per: Peripheral, o: ProcessOutcome): seq<BleCall> {
    if o.connected then [ConnectAsync(per.id), DiscoverAll(per.id)]
    else [ConnectAsync(per.id)]
  }

  /** The calls of the loops when every match is processed: a scan stop before each
      `processPerpheral`, the i-th getting outcome `outcomes(k + i)`. */
  function LoopCalls(per: Peripheral, ms: seq<Config.AccessoryConfig>, k: nat, outcomes: nat -> ProcessOutcome): seq<BleCall>
    decreases |ms|
  {
    if |ms| == 0 then []
    else [StopScanning] + ProcessCalls(per, outcomes(k)) + LoopCalls(per, ms[1..], k + 1, outcomes)
  }

  /** The entries the loops record when every match is processed: match i is recorded,
      under its normalised characteristic id, exactly when its outcome meets `Records`. */
  function Recorded(per: Peripheral, ms: seq<Config.AccessoryConfig>, k: nat, outcomes: nat -> ProcessOutcome): seq<BleDevice>
    decreases |ms|
  {
    if |ms| == 0 then []
    else
      (if Records(ms[0], outcomes(k)) then [BleDevice(ms[0], per, Uuid.Normalize(ms[0].characteristicId))] else [])
      + Recorded(per, ms[1..], k + 1, outcomes)
  }

  /** One `processPerpheral` in terms of `ProcessCalls` and `Records`. */
  lemma ProcessEffect(st: PlatformState, per: Peripheral, acc: Config.AccessoryConfig, o: ProcessOutcome)
    ensures var p := Process(st, per, acc, o);
      && p.calls == ProcessCalls(per, o)
      && p.state == st.(bleDevices := st.bleDevices +
           (if Records(acc, o) then [BleDevice(acc, per, Uuid.Normalize(acc.characteristicId))] else []))
  {
  }

  /** One round of the loops with a recorded device: the stop, one processing, the rest. */
  lemma ProcessMatchesUnfold(st: PlatformState, per: Peripheral, ms: seq<Config.AccessoryConfig>, k: nat, outcomes: nat -> ProcessOutcome)
    requires per.connectable && |ms| > 0
    requires |Process(st.(scanning := false), per, ms[0], outcomes(k)).state.bleDevices| > 0
    ensures var p := Process(st.(scanning := false), per, ms[0], outcomes(k));
      var rest := ProcessMatches(p.state, per, ms[1..], k + 1, outcomes);
      ProcessMatches(st, per, ms, k, outcomes) == Step(rest.state, [StopScanning] + p.calls + rest.calls)
  {
  }

  lemma {:induction false} ProcessMatchesCalls(st: PlatformState, per: Peripheral, ms: seq<Config.AccessoryConfig>, k: nat, outcomes: nat -> ProcessOutcome)
    requires per.connectable && |st.bleDevices| > 0
    ensures ProcessMatches(st, per, ms, k, outcomes).calls == LoopCalls(per, ms, k, outcomes)
    decreases |ms|
  {
    if |ms| > 0 {
      var stopped := st.(scanning := false);
      var p := Process(stopped, per, ms[0], outcomes(k));
      ProcessEffect(stopped, per, ms[0], outcomes(k));
      ProcessMatchesUnfold(st, per, ms, k, outcomes);
      ProcessMatchesCalls(p.state, per, ms[1..], k + 1, outcomes);
    }
  }

  lemma {:induction false} ProcessMatchesRecorded(st: PlatformState, per: Peripheral, ms: seq<Config.AccessoryConfig>, k: nat, outcomes: nat -> ProcessOutcome)
    requires per.connectable && |st.bleDevices| > 0
    ensures ProcessMatches(st, per, ms, k, outcomes).state.bleDevices == st.bleDevices + Recorded(per, ms, k, outcomes)
    decreases |ms|
  {
    if |ms| > 0 {
      var stopped := st.(scanning := false);
      var p := Process(stopped, per, ms[0], outcomes(k));
      ProcessEffect(stopped, per, ms[0], outcomes(k));
      ProcessMatchesUnfold(st, per, ms, k, outcomes);
      ProcessMatchesRecorded(p.state, per, ms[1..], k + 1, outcomes);
    }
  }

  lemma {:induction false} ProcessMatchesScanning(st: PlatformState, per: Peripheral, ms: seq<Config.AccessoryConfig>, k: nat, outcomes: nat -> ProcessOutcome)
    requires per.connectable && |st.bleDevices| > 0
    ensures ProcessMatches(st, per, ms, k, outcomes).state.scanning == (if |ms| == 0 then st.scanning else false)
    decreases |ms|
  {
    if |ms| > 1 {
      var stopped := st.(scanning := false);
      var p := Process(stopped, per, ms[0], outcomes(k));
      ProcessMatchesUnfold(st, per, ms, k, outcomes);
      ProcessMatchesScanning(p.state, per, ms[1..], k + 1, outcomes);
    }
  }

  /** Once some device is recorded, no restart can happen: every match is processed in
      order, with its own outcome, and each one meeting `Records` is appended. */
  lemma ProcessMatchesEveryMatch(st: PlatformState, per: Peripheral, ms: seq<Config.AccessoryConfig>, k: nat, outcomes: nat -> ProcessOutcome)
    requires per.connectable && |st.bleDevices| > 0
    ensures var r := ProcessMatches(st, per, ms, k, outcomes);
      && r.calls == LoopCalls(per, ms, k, outcomes)
      && r.state.bleDevices == st.bleDevices + Recorded(per, ms, k, outcomes)
      && r.state.scanning == (if |ms| == 0 then st.scanning else false)
  {
    ProcessMatchesCalls(st, per, ms, k, outcomes);
    ProcessMatchesRecorded(st, per, ms, k, outcomes);
    ProcessMatchesScanning(st, per, ms, k, outcomes);
  }

  /** With no device recorded yet, a first match that is not recorded restarts scanning
      and ends the handler. */
  lemma ProcessMatchesRestart(st: PlatformState, per: Peripheral, ms: seq<Config.AccessoryConfig>, k: nat, outcomes: nat -> ProcessOutcome)
    requires per.connectable && |st.bleDevices| == 0 && |ms| > 0 && !Records(ms[0], outcomes(k))
    ensures ProcessMatches(st, per, ms, k, outcomes) ==
      Step(st.(scanning := true), [StopScanning] + ProcessCalls(per, outcomes(k)) + [StartScanning])
  {
    ProcessEffect(st.(scanning := false), per, ms[0], outcomes(k));
  }

  /** With no device recorded yet, the first match decides: if it is not recorded, scanning
      restarts and the handler ends; otherwise every match is processed as above. */
  lemma ProcessMatchesFromEmpty(st: PlatformState, per: Peripheral, ms: seq<Config.AccessoryConfig>, k: nat, outcomes: nat -> ProcessOutcome)
    requires per.connectable && |st.bleDevices| == 0 && |ms| > 0
    ensures var r := ProcessMatches(st, per, ms, k, outcomes);
      if Records(ms[0], outcomes(k)) then
        && r.calls == LoopCalls(per, ms, k, outcomes)
        && r.state.bleDevices == Recorded(per, ms, k, outcomes)
        && !r.state.scanning
      else
        r == Step(st.(scanning := true), [StopScanning] + ProcessCalls(per, outcomes(k)) + [StartScanning])
  {
    if Records(ms[0], outcomes(k)) {
      var stopped := st.(scanning := false);
      var p := Process(stopped, per, ms[0], outcomes(k));
      ProcessEffect(stopped, per, ms[0], outcomes(k));
      ProcessMatchesUnfold(st, per, ms, k, outcomes);
      ProcessMatchesEveryMatch(p.state, per, ms[1..], k + 1, outcomes);
      assert Recorded(per, ms, k, outcomes) == p.state.bleDevices + Recorded(per, ms[1..], k + 1, outcomes);
      assert LoopCalls(per, ms, k, outcomes) == [StopScanning] + ProcessCalls(per, outcomes(k)) + LoopCalls(per, ms[1..], k + 1, outcomes);
    } else {
      ProcessMatchesRestart(st, per, ms, k, outcomes);
    }
  }

  /** After the loops, scanning is on iff no device is recorded; it is restarted (as the
      last call) only when the list is empty; new entries come from the matched accessories. */
  lemma {:induction false} ProcessMatchesDevices(st: PlatformState, per: Peripheral, ms: seq<Config.AccessoryConfig>, k: nat, outcomes: nat -> ProcessOutcome)
    ensures var r := ProcessMatches(st, per, ms, k, outcomes);
      && (|ms| > 0 && per.connectable ==> (r.state.scanning <==> |r.state.bleDevices| == 0))
      && (StartScanning in r.calls ==> |r.state.bleDevices| == 0 && r.calls[|r.calls| - 1] == StartScanning)
      && AppendedFor(st.bleDevices, r.state.bleDevices, per, ms)
    decreases |ms|
  {
    var r := ProcessMatches(st, per, ms, k, outcomes);
    if |ms| > 0 && per.connectable {
      var stopped := st.(scanning := false);
      var p := Process(stopped, per, ms[0], outcomes(k));
      if |p.state.bleDevices| > 0 {
        var rest := ProcessMatches(p.state, per, ms[1..], k + 1, outcomes);
        ProcessMatchesDevices(p.state, per, ms[1..], k + 1, outcomes);
        assert r.calls == [StopScanning] + p.calls + rest.calls;
        assert StartScanning !in p.calls;
        ProcessAppendedFor(stopped, per, ms, outcomes(k));
        AppendedForTrans(st.bleDevices, p.state.bleDevices, rest.state.bleDevices, per, ms[1..], ms);
      } else {
        ProcessAppendedFor(stopped, per, ms, outcomes(k));
      }
    }
  }

  /** The 'discover' handler. */
  function OnDiscover(st: PlatformState, per: Peripheral, outcomes: nat -> ProcessOutcome): (r: Step)
    ensures !st.listening || per.serviceUuids.None? ==> r == Step(st, [])
    ensures r.calls != [] ==> r.calls[0] == StopScanning
    ensures ConnectsAfterStop(r.calls)
    ensures r.state.listening == st.listening && r.state.accessories == st.accessories
    ensures per.serviceUuids.Some? && !HasMatch(per.serviceUuids.value, st.accessories) ==> r == Step(st, [])
  {
    if !st.listening || per.serviceUuids.None? || |per.serviceUuids.value| == 0 then Step(st, [])
    else ProcessMatches(st, per, Matches(per.serviceUuids.value, st.accessories), 0, outcomes)
  }

  /** The handler calls the library at all iff some advertised service uuid equals some
      configured accessory's normalised service id. */
  lemma OnDiscoverActsIffMatch(st: PlatformState, per: Peripheral, outcomes: nat -> ProcessOutcome)
    requires st.listening && per.serviceUuids.Some?
    ensures OnDiscover(st, per, outcomes).calls != [] <==> HasMatch(per.serviceUuids.value, st.accessories)
  {
  }

  /** On a match, a non-connectable peripheral ends the handler right after scanning stops;
      a connectable one leaves scanning on exactly when no device is recorded. */
  lemma OnDiscoverScanning(st: PlatformState, per: Peripheral, outcomes: nat -> ProcessOutcome)
    requires st.listening && per.serviceUuids.Some? && HasMatch(per.serviceUuids.value, st.accessories)
    ensures var r := OnDiscover(st, per, outcomes);
      if per.connectable then (r.state.scanning <==> |r.state.bleDevices| == 0)
      else r == Step(st.(scanning := false), [StopScanning])
  {
    ProcessMatchesDevices(st, per, Matches(per.serviceUuids.value, st.accessories), 0, outcomes);
  }

  /** Peripheral `per` advertises a service uuid equal to the normalised service id of `acc`. */
  predicate Advertises(per: Peripheral, acc: Config.AccessoryConfig) {
    per.serviceUuids.Some? && exists u :: u in per.serviceUuids.value && Uuid.SameId(acc.serviceId, u)
  }

  /** Every matched accessory is configured and advertised by the peripheral. */
  lemma MatchedIsAdvertised(per: Peripheral, accs: seq<Config.AccessoryConfig>)
    requires per.serviceUuids.Some?
    ensures forall a :: a in Matches(per.serviceUuids.value, accs) ==> a in accs && Advertises(per, a)
  {
    var us := per.serviceUuids.value;
    forall a | a in Matches(us, accs)
      ensures a in accs && Advertises(per, a)
    {
      var j :| 0 <= j < |us| && Uuid.SameId(a.serviceId, us[j]);
      assert us[j] in us;
    }
  }

  /** `bleDevices` only grows, by entries for this peripheral and a configured accessory
      whose normalised service id it advertises; scanning is restarted only while the
      list is empty. */
  lemma OnDiscoverRecords(st: PlatformState, per: Peripheral, outcomes: nat -> ProcessOutcome)
    ensures var r := OnDiscover(st, per, outcomes);
      && AppendedFor(st.bleDevices, r.state.bleDevices, per, st.accessories)
      && (StartScanning in r.calls ==> |r.state.bleDevices| == 0)
      && (forall i :: |st.bleDevices| <= i < |r.state.bleDevices| ==> Advertises(per, r.state.bleDevices[i].accessory))
  {
    var r := OnDiscover(st, per, outcomes);
    if st.listening && per.serviceUuids.Some? && |per.serviceUuids.value| > 0 {
      var ms := Matches(per.serviceUuids.value, st.accessories);
      ProcessMatchesDevices(st, per, ms, 0, outcomes);
      MatchedIsAdvertised(per, st.accessories);
    }
  }

  /** Once a device is recorded, the handler processes every matched (uuid, accessory)
      pair of a connectable peripheral in loop order and records exactly those meeting
      `Records`. */
  lemma OnDiscoverEveryMatch(st: PlatformState, per: Peripheral, outcomes: nat -> ProcessOutcome)
    requires st.listening && per.serviceUuids.Some? && per.connectable && |st.bleDevices| > 0
    ensures var r := OnDiscover(st, per, outcomes);
      var ms := Matches(per.serviceUuids.value, st.accessories);
      && r.calls == LoopCalls(per, ms, 0, outcomes)
      && r.state.bleDevices == st.bleDevices + Recorded(per, ms, 0, outcomes)
  {
    ProcessMatchesEveryMatch(st, per, Matches(per.serviceUuids.value, st.accessories), 0, outcomes);
  }

  /** A restored or registered host accessory. */
  datatype PlatformAccessory = PlatformAccessory(displayName: string, uuid: string)

  /** A call into the host's accessory registry. */
  datatype HostCall = Unregister(accessory: PlatformAccessory) | Register(accessory: PlatformAccessory)

  function CachedUuids(cache: seq<PlatformAccessory>): (r: seq<string>)
    ensures |r| == |cache| && forall i :: 0 <= i < |cache| ==> r[i] == cache[i].uuid
  {
    seq(|cache|, i requires 0 <= i < |cache| => cache[i].uuid)
  }

  /** One iteration of `discoverDevices` for one accessory configuration; `generate` is the
      host's uuid generator, left uninterpreted. */
  function DiscoverOne(cache: seq<PlatformAccessory>, a: Config.AccessoryConfig, generate: string -> string): (r: seq<HostCall>)
    ensures |r| > 0 && r[|r| - 1] == Register(PlatformAccessory(a.name, generate(a.serviceId)))
    ensures |r| == 2 <==> exists c :: c in cache && c.uuid == generate(a.serviceId)
    ensures |r| == 1 || |r| == 2
    ensures |r| == 2 ==> r[0].Unregister? && r[0].accessory in cache && r[0].accessory.uuid == generate(a.serviceId)
    ensures CachedReplaced(r, cache)
  {
    var uuid := generate(a.serviceId);
    var added := Register(PlatformAccessory(a.name, uuid));
    match Uuid.FirstIndex(CachedUuids(cache), uuid)
    case Some(i) => [Unregister(cache[i]), added]
    case None =>
      assert forall c :: c in cache ==> c.uuid != uuid by {
        forall c | c in cache ensures c.uuid != uuid {
          var i :| 0 <= i < |cache| && cache[i] == c;
          assert CachedUuids(cache)[i] == c.uuid;
        }
      }
      [added]
  }

  /** The accessories a sequence of host calls registers, in order. */
  function Registered(calls: seq<HostCall>): seq<PlatformAccessory>
    decreases |calls|
  {
    if |calls| == 0 then []
    else (if calls[0].Register? then [calls[0].accessory] else []) + Registered(calls[1..])
  }

  lemma {:induction false} RegisteredConcat(a: seq<HostCall>, b: seq<HostCall>)
    ensures Registered(a + b) == Registered(a) + Registered(b)
    decreases |a|
  {
    if |a| == 0 {
      assert a + b == b;
    } else {
      assert (a + b)[0] == a[0];
      assert (a + b)[1..] == a[1..] + b;
      RegisteredConcat(a[1..], b);
      assert Registered(a + b) == (if a[0].Register? then [a[0].accessory] else []) + Registered(a[1..] + b);
    }
  }

  /** An unregister is always directly followed by the registration that replaces it:
      same uuid. */
  predicate ReplacedInPlace(calls: seq<HostCall>) {
    forall i :: 0 <= i < |calls| && calls[i].Unregister? ==>
      i + 1 < |calls| && calls[i + 1].Register? && calls[i + 1].accessory.uuid == calls[i].accessory.uuid
  }

  /** Every registration whose uuid is already cached comes right after the unregister
      of an accessory with that uuid. */
  predicate CachedReplaced(calls: seq<HostCall>, cache: seq<PlatformAccessory>) {
    forall i :: 0 <= i < |calls| && calls[i].Register? && calls[i].accessory.uuid in CachedUuids(cache) ==>
      i > 0 && calls[i - 1].Unregister? && calls[i - 1].accessory.uuid == calls[i].accessory.uuid
  }

  /** Every unregister names a cached accessory. */
  predicate UnregistersCached(calls: seq<HostCall>, cache: seq<PlatformAccessory>) {
    forall i :: 0 <= i < |calls| && calls[i].Unregister? ==> calls[i].accessory in cache
  }

  lemma UnregistersCachedConcat(a: seq<HostCall>, b: seq<HostCall>, cache: seq<PlatformAccessory>)
    requires UnregistersCached(a, cache) && UnregistersCached(b, cache)
    ensures UnregistersCached(a + b, cache)
  {
    forall i | 0 <= i < |a + b| && (a + b)[i].Unregister? ensures (a + b)[i].accessory in cache {
      if i < |a| { assert (a + b)[i] == a[i]; } else { assert (a + b)[i] == b[i - |a|]; }
    }
  }

  lemma CachedReplacedConcat(a: seq<HostCall>, b: seq<HostCall>, cache: seq<PlatformAccessory>)
    requires CachedReplaced(a, cache) && CachedReplaced(b, cache)
    ensures CachedReplaced(a + b, cache)
  {
    forall i | 0 <= i < |a + b| && (a + b)[i].Register? && (a + b)[i].accessory.uuid in CachedUuids(cache)
      ensures i > 0 && (a + b)[i - 1].Unregister? && (a + b)[i - 1].accessory.uuid == (a + b)[i].accessory.uuid
    {
      if i < |a| {
        assert (a + b)[i] == a[i] && (a + b)[i - 1] == a[i - 1];
      } else {
        assert (a + b)[i] == b[i - |a|];
        assert i - |a| > 0;
        assert (a + b)[i - 1] == b[i - 1 - |a|];
      }
    }
  }

  lemma ReplacedInPlaceConcat(a: seq<HostCall>, b: seq<HostCall>)
    requires ReplacedInPlace(a) && ReplacedInPlace(b)
    ensures ReplacedInPlace(a + b)
  {
    forall i | 0 <= i < |a + b| && (a + b)[i].Unregister?
      ensures i + 1 < |a + b| && (a + b)[i + 1].Register? && (a + b)[i + 1].accessory.uuid == (a + b)[i].accessory.uuid
    {
      if i < |a| {
        assert (a + b)[i] == a[i] && (a + b)[i + 1] == a[i + 1];
      } else {
        assert (a + b)[i] == b[i - |a|] && (a + b)[i + 1] == b[i + 1 - |a|];
      }
    }
  }

  /** The host accessory created for each configuration, in order. */
  function Fresh(accs: seq<Config.AccessoryConfig>, generate: string -> string): (r: seq<PlatformAccessory>)
    ensures |r| == |accs|
    ensures forall i :: 0 <= i < |accs| ==> r[i] == PlatformAccessory(accs[i].name, generate(accs[i].serviceId))
  {
    seq(|accs|, i requires 0 <= i < |accs| => PlatformAccessory(accs[i].name, generate(accs[i].serviceId)))
  }

  lemma FreshCons(accs: seq<Config.AccessoryConfig>, generate: string -> string)
    requires |accs| > 0
    ensures Fresh(accs, generate) == [PlatformAccessory(accs[0].name, generate(accs[0].serviceId))] + Fresh(accs[1..], generate)
  {
  }

  lemma RegisteredOne(cache: seq<PlatformAccessory>, a: Config.AccessoryConfig, generate: string -> string)
    ensures Registered(DiscoverOne(cache, a, generate)) == [PlatformAccessory(a.name, generate(a.serviceId))]
  {
    var head := DiscoverOne(cache, a, generate);
    if |head| == 2 {
      assert head[1..][1..] == [];
      assert Registered(head[1..]) == [head[1].accessory];
    } else {
      assert head[1..] == [];
    }
  }

  /** `discoverDevices`: each configured accessory is registered once, in order, and a
      cached accessory with its generated uuid is unregistered just before. The cache
      itself is not updated. */
  function DiscoverDevices(cache: seq<PlatformAccessory>, accs: seq<Config.AccessoryConfig>, generate: string -> string): (r: seq<HostCall>)
    ensures Registered(r) == Fresh(accs, generate)
    ensures ReplacedInPlace(r)
    ensures UnregistersCached(r, cache)
    ensures CachedReplaced(r, cache)
    decreases |accs|
  {
    if |accs| == 0 then []
    else
      var head := DiscoverOne(cache, accs[0], generate);
      var rest := DiscoverDevices(cache, accs[1..], generate);
      RegisteredConcat(head, rest);
      RegisteredOne(cache, accs[0], generate);
      FreshCons(accs, generate);
      ReplacedInPlaceConcat(head, rest);
      CachedReplacedConcat(head, rest, cache);
      UnregistersCachedConcat(head, rest, cache);
      head + rest
  }
}

=== FILE: seqs.dfy ===
/** Order-preserving filtering and flattening of sequences, as the plugin's nested
    `for … of` loops do over arrays. */
module Seqs {

  /** The elements of `xs` that satisfy `keep`, in order. */
  function Filter<T>(keep: T -> bool, xs: seq<T>): seq<T>
    decreases |xs|
  {
    if |xs| == 0 then []
    else (if keep(xs[0]) then [xs[0]] else []) + Filter(keep, xs[1..])
  }

  lemma {:induction false} FilterMembers<T>(keep: T -> bool, xs: seq<T>)
    ensures forall x :: x in Filter(keep, xs) <==> x in xs && keep(x)
    decreases |xs|
  {
    if |xs| > 0 {
      FilterMembers(keep, xs[1..]);
      assert forall x :: x in xs <==> x == xs[0] || x in xs[1..];
    }
  }

  lemma {:induction false} FilterConcat<T>(keep: T -> bool, a: seq<T>, b: seq<T>)
    ensures Filter(keep, a + b) == Filter(keep, a) + Filter(keep, b)
    decreases |a|
  {
    if |a| == 0 {
      assert a + b == b;
    } else {
      var head := if keep(a[0]) then [a[0]] else [];
      assert (a + b)[0] == a[0];
      assert (a + b)[1..] == a[1..] + b;
      FilterConcat(keep, a[1..], b);
      calc {
        Filter(keep, a + b);
        head + Filter(keep, a[1..] + b);
        head + (Filter(keep, a[1..]) + Filter(keep, b));
        (head + Filter(keep, a[1..])) + Filter(keep, b);
      }
    }
  }

  /** `f(xs[0]) + f(xs[1]) + …`. */
  function FlatMap<S, T>(f: S -> seq<T>, xs: seq<S>): seq<T>
    decreases |xs|
  {
    if |xs| == 0 then [] else f(xs[0]) + FlatMap(f, xs[1..])
  }

  lemma {:induction false} FlatMapSound<S, T>(f: S -> seq<T>, xs: seq<S>, y: T)
    requires y in FlatMap(f, xs)
    ensures exists i :: 0 <= i < |xs| && y in f(xs[i])
    decreases |xs|
  {
    if y !in f(xs[0]) {
      FlatMapSound(f, xs[1..], y);
      var i :| 0 <= i < |xs[1..]| && y in f(xs[1..][i]);
      assert xs[1..][i] == xs[i + 1];
    }
  }

  lemma {:induction false} FlatMapComplete<S, T>(f: S -> seq<T>, xs: seq<S>, i: nat, y: T)
    requires i < |xs| && y in f(xs[i])
    ensures y in FlatMap(f, xs)
    decreases i
  {
    if i > 0 {
      assert xs[i] == xs[1..][i - 1];
      FlatMapComplete(f, xs[1..], i - 1, y);
    }
  }

  lemma FlatMapMembers<S, T>(f: S -> seq<T>, xs: seq<S>)
    ensures forall y :: y in FlatMap(f, xs) <==> exists i :: 0 <= i < |xs| && y in f(xs[i])
  {
    forall y | y in FlatMap(f, xs)
      ensures exists i :: 0 <= i < |xs| && y in f(xs[i])
    {
      FlatMapSound(f, xs, y);
    }
    forall y, i | 0 <= i < |xs| && y in f(xs[i])
      ensures y in FlatMap(f, xs)
    {
      FlatMapComplete(f, xs, i, y);
    }
  }

  lemma {:induction false} FlatMapConcat<S, T>(f: S -> seq<T>, a: seq<S>, b: seq<S>)
    ensures FlatMap(f, a + b) == FlatMap(f, a) + FlatMap(f, b)
    decreases |a|
  {
    if |a| == 0 {
      assert a + b == b;
    } else {
      assert (a + b)[0] == a[0];
      assert (a + b)[1..] == a[1..] + b;
      FlatMapConcat(f, a[1..], b);
      calc {
        FlatMap(f, a + b);
        f(a[0]) + FlatMap(f, a[1..] + b);
        f(a[0]) + (FlatMap(f, a[1..]) + FlatMap(f, b));
        (f(a[0]) + FlatMap(f, a[1..])) + FlatMap(f, b);
      }
    }
  }
}

=== FILE: switch.dfy ===
/**
  The BLE switch accessory: one session per configured switch, holding the
  peripheral's connection state, the reconnect interval and the bound
  characteristic. Every handler of the accessory is a pure transition; the
  results of the BLE library's asynchronous calls are parameters, and the
  library calls a handler issues are returned in order. Each handler runs to
  completion before the next one starts.
 */
module Switch {
  import opened Wrappers
  import Uuid
  import opened Ble

  /** Period of the reconnect interval, in milliseconds. */
  const ReconnectPeriodMs: nat := 10000

  /** A `setInterval` handle. */
  datatype Timer = Timer(id: nat, periodMs: nat)

  datatype Session = Session(
    peripheral: nat,                        // the peripheral this accessory drives
    characteristicId: string,               // the configured characteristic id, as written
    state: PeripheralState,                 // `peripheral.state`
    reconnect: Option<Timer>,               // the `reconnectInterval` field
    live: set<Timer>,                       // intervals the runtime still fires
    nextTimerId: nat,                       // the runtime's next fresh handle
    characteristic: Option<Characteristic>, // the `characteristic` field
    listeners: multiset<nat>)               // one entry per `on('data', onData)` still attached

  /** What `cancelConnect()` did: it threw, or it returned and left the peripheral in `stateAfter`. */
  datatype CancelOutcome = CancelThrew | Cancelled(stateAfter: PeripheralState)
  /** What `connectAsync()` did. */
  datatype ConnectOutcome = ConnectResolved | ConnectThrew
  datatype ConnectEnv = ConnectEnv(cancel: CancelOutcome, connect: ConnectOutcome)
  datatype WriteOutcome = WriteResolved | WriteThrew
  datatype ReadOutcome = ReadThrew | ReadResolved(data: seq<Byte>)

  datatype ConnectResult = ConnectResult(session: Session, ok: bool, calls: seq<BleCall>)
  datatype Transition = Transition(session: Session, calls: seq<BleCall>)

  /** What a HomeKit GET handler resolves to. */
  datatype HomeValue = Value(on: bool) | Undefined
  datatype GetResult = GetResult(value: HomeValue, calls: seq<BleCall>)

  /** What `onData` does with a buffer: nothing, push a value to HomeKit, or reject
      (reading byte 0 of an empty buffer throws). */
  datatype DataOutcome = Ignored | Pushed(on: bool) | Rejected

  /**
    The session invariant: the reconnect field references every interval that is still
    live (so at most one exists and none is leaked), handles are fresh, and the only
    characteristic carrying a data listener is the bound one, carrying exactly one.
   */
  predicate Inv(s: Session) {
    && (s.reconnect.None? ==> s.live == {})
    && (s.reconnect.Some? ==> s.live == {s.reconnect.value})
    && (forall t :: t in s.live ==> t.id < s.nextTimerId)
    && s.listeners == (if s.characteristic.Some? then multiset{s.characteristic.value.handle} else multiset{})
  }

  /** `_ble_checkForConnection`: the readiness gate of every read and write. Under the
      invariant, a ready session's characteristic carries exactly one data listener. */
  function Ready(s: Session): (ready: bool)
    ensures ready <==> s.state == Connected && s.characteristic.Some?
    ensures ready && Inv(s) ==> s.listeners == multiset{s.characteristic.value.handle}
    ensures !ready && Inv(s) ==> s.state != Connected || s.listeners == multiset{}
  {
    s.state == Connected && s.characteristic.Some?
  }

  /** `setInterval(..., 10000)` stored in the reconnect field. */
  function Arm(s: Session): (r: Session)
    requires s.reconnect.None?
    ensures r.reconnect == Some(Timer(s.nextTimerId, ReconnectPeriodMs))
    ensures r.live == s.live + {r.reconnect.value}
    ensures Inv(s) ==> r.reconnect.value !in s.live && Inv(r) && |r.live| == 1
    ensures r.state == s.state && r.characteristic == s.characteristic && r.listeners == s.listeners
    ensures r.peripheral == s.peripheral && r.characteristicId == s.characteristicId
  {
    var t := Timer(s.nextTimerId, ReconnectPeriodMs);
    s.(reconnect := Some(t), live := s.live + {t}, nextTimerId := s.nextTimerId + 1)
  }

  /** `clearInterval(reconnectInterval); reconnectInterval = null`. */
  function Disarm(s: Session): (r: Session)
    ensures r.reconnect.None? && r.live <= s.live
    ensures Inv(s) ==> r.live == {} && Inv(r)
    ensures r.nextTimerId == s.nextTimerId
    ensures r.state == s.state && r.characteristic == s.characteristic && r.listeners == s.listeners
    ensures r.peripheral == s.peripheral && r.characteristicId == s.characteristicId
  {
    match s.reconnect
    case None => s
    case Some(t) => s.(reconnect := None, live := s.live - {t})
  }

  /** The catch block of `_ble_connect`: a retry interval is armed only if none is. */
  function ConnectFailed(s: Session, calls: seq<BleCall>): ConnectResult {
    ConnectResult(if s.reconnect.None? then Arm(s) else s, false, calls)
  }

  /** Whether `_ble_connect` reaches its catch block. */
  predicate ConnectThrows(s: Session, env: ConnectEnv) {
    && s.state != Connected
    && (|| env.cancel.CancelThrew?
        || (env.cancel.stateAfter != Connecting && env.connect.ConnectThrew?))
  }

  /** `_ble_connect`. */
  function BleConnect(s: Session, env: ConnectEnv): (r: ConnectResult)
    ensures s.state == Connected ==> r == ConnectResult(s, true, [])
    ensures s.state != Connected ==> |r.calls| > 0 && r.calls[0] == CancelConnect(s.peripheral)
    ensures s.state != Connected && env.cancel == Cancelled(Connecting) ==>
      r == ConnectResult(s.(state := Connecting), false, [CancelConnect(s.peripheral)])
    ensures ConnectAsync(s.peripheral) in r.calls <==>
      s.state != Connected && env.cancel.Cancelled? && env.cancel.stateAfter != Connecting
    ensures ConnectAsync(s.peripheral) in r.calls ==>
      r.calls == [CancelConnect(s.peripheral), ConnectAsync(s.peripheral)]
    ensures |r.calls| <= 2 && forall c :: c in r.calls ==> c.CancelConnect? || c.ConnectAsync?
    ensures forall c :: c in r.calls ==> c.peripheral == s.peripheral
    ensures r.ok <==>
      (|| s.state == Connected
       || (env.cancel.Cancelled? && env.cancel.stateAfter != Connecting && env.connect.ConnectResolved?))
    ensures r.ok ==> r.session.state == Connected
    ensures r.ok || ConnectThrows(s, env) || r.session.state == Connecting
    ensures r.ok ==> r.session.reconnect == s.reconnect && r.session.live == s.live
    ensures !ConnectThrows(s, env) ==> r.session.reconnect == s.reconnect && r.session.live == s.live
    ensures ConnectThrows(s, env) ==> !r.ok
    ensures ConnectThrows(s, env) && s.reconnect.None? ==>
      r.session.reconnect == Some(Timer(s.nextTimerId, ReconnectPeriodMs))
    ensures s.reconnect.Some? ==> r.session.reconnect == s.reconnect && r.session.live == s.live
    ensures r.session.characteristic == s.characteristic && r.session.listeners == s.listeners
    ensures r.session.peripheral == s.peripheral && r.session.characteristicId == s.characteristicId
    ensures Inv(s) ==> Inv(r.session)
  {
    if s.state == Connected then ConnectResult(s, true, [])
    else
      match env.cancel
      case CancelThrew => ConnectFailed(s, [CancelConnect(s.peripheral)])
      case Cancelled(after) =>
        var s1 := s.(state := after);
        if after == Connecting then ConnectResult(s1, false, [CancelConnect(s.peripheral)])
        else
          var calls := [CancelConnect(s.peripheral), ConnectAsync(s.peripheral)];
          match env.connect
          case ConnectResolved => ConnectResult(s1.(state := Connected), true, calls)
          case ConnectThrew => ConnectFailed(s1, calls)
  }

  /** A connect that reported success leaves the peripheral connected, so the next
      connect returns true at once and issues no library call, whatever the library would do. */
  lemma ConnectIdempotent(s: Session, first: ConnectEnv, second: ConnectEnv)
    ensures var r := BleConnect(s, first);
      r.ok ==> BleConnect(r.session, second) == ConnectResult(r.session, true, [])
  {
  }

  /** The constructor: a fresh session for the peripheral and the configured characteristic
      id, followed by one `_ble_connect`. */
  function Create(peripheral: nat, characteristicId: string, initial: PeripheralState, env: ConnectEnv): (r: Transition)
    ensures Inv(r.session)
    ensures r.session.characteristic.None? && r.session.listeners == multiset{}
    ensures r.session.peripheral == peripheral && r.session.characteristicId == characteristicId
    ensures |r.session.live| <= 1
    ensures initial == Connected ==> r.calls == [] && r.session.state == Connected
    ensures initial != Connected ==> |r.calls| > 0 && r.calls[0] == CancelConnect(peripheral)
    ensures ConnectAsync(peripheral) in r.calls <==>
      initial != Connected && env.cancel.Cancelled? && env.cancel.stateAfter != Connecting
    ensures initial != Connected && env.cancel == Cancelled(Connecting) ==>
      r.calls == [CancelConnect(peripheral)] && r.session.state == Connecting
    ensures initial != Connected && env.cancel.Cancelled? && env.cancel.stateAfter != Connecting ==>
      r.calls == [CancelConnect(peripheral), ConnectAsync(peripheral)]
    ensures initial != Connected && env.cancel.Cancelled? && env.cancel.stateAfter != Connecting ==>
      r.session.state == (if env.connect.ConnectResolved? then Connected else env.cancel.stateAfter)
    ensures initial != Connected && env.cancel.CancelThrew? ==>
      r.calls == [CancelConnect(peripheral)] && r.session.state == initial
    ensures r.session.reconnect.Some? <==>
      initial != Connected &&
      (env.cancel.CancelThrew? || (env.cancel.stateAfter != Connecting && env.connect.ConnectThrew?))
    ensures r.session.reconnect.Some? ==> r.session.reconnect == Some(Timer(0, ReconnectPeriodMs))
  {
    var s := Session(peripheral, characteristicId, initial, None, {}, 0, None, multiset{});
    var c := BleConnect(s, env);
    Transition(c.session, c.calls)
  }

  /** The handler of the peripheral's 'disconnect' event. The bound characteristic is
      kept: only the connection state makes the session not ready. */
  function OnDisconnect(s: Session): (r: Session)
    ensures r.state == Disconnected && !Ready(r)
    ensures r.reconnect == Some(Timer(s.nextTimerId, ReconnectPeriodMs))
    ensures Inv(s) ==> r.reconnect.value !in s.live && r.live == {r.reconnect.value}
    ensures r.characteristic == s.characteristic && r.listeners == s.listeners
    ensures r.peripheral == s.peripheral && r.characteristicId == s.characteristicId
    ensures Inv(s) ==> Inv(r)
  {
    Arm(Disarm(s.(state := Disconnected)))
  }

  /** `_ble_initialize`: release the old characteristic, forget it, discover, and bind the
      first characteristic whose uuid is the normalised configured id. */
  function Initialize(s: Session, d: DiscoveryOutcome): (r: Transition)
    ensures r.session.state == s.state
    ensures r.session.reconnect == s.reconnect && r.session.live == s.live
    ensures r.session.peripheral == s.peripheral && r.session.characteristicId == s.characteristicId
    ensures s.characteristic.Some? ==>
      var h := s.characteristic.value.handle;
      |r.calls| >= 3 && r.calls[..3] == [Unsubscribe(h), RemoveAllListeners(h), DiscoverAll(s.peripheral)]
    ensures s.characteristic.None? ==> |r.calls| > 0 && r.calls[0] == DiscoverAll(s.peripheral)
    ensures r.session.characteristic.Some? <==>
      (d.Discovered? && exists j :: 0 <= j < |d.characteristics| &&
                                    Uuid.SameId(s.characteristicId, d.characteristics[j].uuid))
    ensures r.session.characteristic.Some? ==>
      exists i :: 0 <= i < |d.characteristics| && d.characteristics[i] == r.session.characteristic.value
        && Uuid.SameId(s.characteristicId, d.characteristics[i].uuid)
        && forall j :: 0 <= j < i ==> !Uuid.SameId(s.characteristicId, d.characteristics[j].uuid)
    ensures r.session.characteristic.Some? ==>
      var h := r.session.characteristic.value.handle;
      |r.calls| >= 2 && r.calls[|r.calls| - 2..] == [Unsubscribe(h), Subscribe(h)]
    ensures |r.calls| == (if s.characteristic.Some? then 3 else 1) + (if r.session.characteristic.Some? then 2 else 0)
    ensures Inv(s) ==> Inv(r.session)
  {
    var release := match s.characteristic
      case Some(c) => [Unsubscribe(c.handle), RemoveAllListeners(c.handle)]
      case None => [];
    var listeners := match s.characteristic
      case Some(c) => s.listeners[c.handle := 0]
      case None => s.listeners;
    var cleared := s.(characteristic := None, listeners := listeners);
    var calls := release + [DiscoverAll(s.peripheral)];
    match d
    case DiscoveryThrew => Transition(cleared, calls)
    case Discovered(cs) =>
      if |cs| == 0 then Transition(cleared, calls)
      else
        match FirstMatching(cs, s.characteristicId)
        case None => Transition(cleared, calls)
        case Some(i) =>
          var c := cs[i];
          var bound := cleared.(characteristic := Some(c), listeners := listeners + multiset{c.handle});
          Transition(bound, calls + [Unsubscribe(c.handle), Subscribe(c.handle)])
  }

  /** The handler of the peripheral's 'connect' event. */
  function OnConnect(s: Session, d: DiscoveryOutcome): (r: Transition)
    ensures s.state != Connected ==> r == Transition(s, [])
    ensures s.state == Connected ==> r.session.reconnect.None? && r.session.state == Connected
    ensures s.state == Connected && Inv(s) ==> r.session.live == {}
    ensures r.session.peripheral == s.peripheral && r.session.characteristicId == s.characteristicId
    ensures s.state == Connected && s.characteristic.Some? ==>
      var h := s.characteristic.value.handle;
      |r.calls| >= 3 && r.calls[..3] == [Unsubscribe(h), RemoveAllListeners(h), DiscoverAll(s.peripheral)]
    ensures s.state == Connected && s.characteristic.None? ==> |r.calls| > 0 && r.calls[0] == DiscoverAll(s.peripheral)
    ensures s.state == Connected ==>
      |r.calls| == (if s.characteristic.Some? then 3 else 1) + (if r.session.characteristic.Some? then 2 else 0)
    ensures s.state == Connected && r.session.characteristic.Some? ==>
      var h := r.session.characteristic.value.handle;
      r.calls[|r.calls| - 2..] == [Unsubscribe(h), Subscribe(h)]
    ensures s.state == Connected ==>
      (r.session.characteristic.Some? <==>
         (d.Discovered? && exists j :: 0 <= j < |d.characteristics| &&
                                       Uuid.SameId(s.characteristicId, d.characteristics[j].uuid)))
    ensures s.state == Connected && r.session.characteristic.Some? ==>
      exists i :: 0 <= i < |d.characteristics| && d.characteristics[i] == r.session.characteristic.value
        && Uuid.SameId(s.characteristicId, d.characteristics[i].uuid)
        && forall j :: 0 <= j < i ==> !Uuid.SameId(s.characteristicId, d.characteristics[j].uuid)
    ensures s.state == Connected ==> (Ready(r.session) <==> r.session.characteristic.Some?)
    ensures Inv(s) ==> Inv(r.session)
  {
    if s.state != Connected then Transition(s, [])
    else Initialize(Disarm(s), d)
  }

  /** One firing of timer `t`: a cleared interval no longer fires; a live one tries to
      connect and clears the reconnect interval when that succeeds. */
  function OnTick(s: Session, t: Timer, env: ConnectEnv): (r: Transition)
    ensures t !in s.live ==> r == Transition(s, [])
    ensures t in s.live ==> r.calls == BleConnect(s, env).calls
    ensures t in s.live ==> r.session.state == BleConnect(s, env).session.state
    ensures r.session.characteristic == s.characteristic && r.session.listeners == s.listeners
    ensures r.session.peripheral == s.peripheral && r.session.characteristicId == s.characteristicId
    ensures r.session.nextTimerId >= s.nextTimerId
    ensures Inv(s) ==> r.session.live <= s.live
    ensures Inv(s) && t in s.live && BleConnect(s, env).ok ==>
      r.session.reconnect.None? && r.session.live == {} && r.session.state == Connected
    ensures Inv(s) && t in s.live && !BleConnect(s, env).ok ==>
      r.session.reconnect == Some(t) && r.session.live == {t}
    ensures Inv(s) ==> Inv(r.session)
  {
    if t !in s.live then Transition(s, [])
    else
      var c := BleConnect(s, env);
      if c.ok then Transition(Disarm(c.session), c.calls)
      else Transition(c.session, c.calls)
  }

  /** The single byte written for a switch value. */
  function EncodeSwitch(on: bool): (r: seq<Byte>)
    ensures |r| == 1
    ensures r[0] == 1 <==> on
    ensures r[0] == 0 <==> !on
  {
    if on then [1] else [0]
  }

  /** `data.readUInt8(0) === 1`; reading from an empty buffer throws. */
  function DecodeSwitch(data: seq<Byte>): (r: Option<bool>)
    ensures r.None? <==> |data| == 0
    ensures r == Some(true) <==> |data| > 0 && data[0] == 1
    ensures r == Some(false) <==> |data| > 0 && data[0] != 1
  {
    if |data| == 0 then None else Some(data[0] == 1)
  }

  lemma DecodeEncode(on: bool)
    ensures DecodeSwitch(EncodeSwitch(on)) == Some(on)
  {
  }

  /** Decoding reads only byte 0 and takes every value other than 1 as off. */
  lemma DecodeReadsFirstByte(data: seq<Byte>)
    requires |data| > 0
    ensures DecodeSwitch(data) == Some(true) <==> data[0] == 1
    ensures DecodeSwitch(data) == DecodeSwitch(data[..1])
  {
  }

  /** `setOn`: when the gate passes, write one byte with a response expected; a failing
      write is caught, so the session is the same whatever the library does. */
  function SetOn(s: Session, on: bool, write: WriteOutcome): (r: Transition)
    ensures r.session == s
    ensures !Ready(s) ==> r.calls == []
    ensures Ready(s) ==>
              && |r.calls| == 1 && r.calls[0].Write?
              && r.calls[0].handle == s.characteristic.value.handle
              && r.calls[0].data == EncodeSwitch(on) && !r.calls[0].withoutResponse
  {
    if !Ready(s) then Transition(s, [])
    else Transition(s, [Write(s.characteristic.value.handle, EncodeSwitch(on), false)])
  }

  /**
    `getOn` as written. The status decoded from the read goes into an inner binding that
    shadows the outer `status`, so the handler resolves to false after any successful
    read; a failing read (or an empty buffer) resolves to undefined.
   */
  function GetOn(s: Session, read: ReadOutcome): (r: GetResult)
    ensures !Ready(s) ==> r == GetResult(Value(false), [])
    ensures Ready(s) ==> r.calls == [Read(s.characteristic.value.handle)]
    ensures Ready(s) ==> (r.value == Undefined <==> read.ReadThrew? || DecodeSwitch(read.data).None?)
    ensures r.value != Value(true)
  {
    if !Ready(s) then GetResult(Value(false), [])
    else
      var calls := [Read(s.characteristic.value.handle)];
      match read
      case ReadThrew => GetResult(Undefined, calls)
      case ReadResolved(data) =>
        if DecodeSwitch(data).None? then GetResult(Undefined, calls)
        else
          var status := false;
          GetResult(Value(status), calls)
  }

  /** `getOn` as evidently intended: the decoded status is returned. */
  function GetOnIntended(s: Session, read: ReadOutcome): (r: GetResult)
    ensures !Ready(s) ==> r == GetResult(Value(false), [])
    ensures Ready(s) ==> r.calls == [Read(s.characteristic.value.handle)]
    ensures Ready(s) && read.ReadResolved? && DecodeSwitch(read.data).Some? ==>
      r.value == Value(DecodeSwitch(read.data).value)
    ensures Ready(s) && (read.ReadThrew? || DecodeSwitch(read.data).None?) ==> r.value == Undefined
  {
    if !Ready(s) then GetResult(Value(false), [])
    else
      var calls := [Read(s.characteristic.value.handle)];
      match read
      case ReadThrew => GetResult(Undefined, calls)
      case ReadResolved(data) =>
        match DecodeSwitch(data)
        case None => GetResult(Undefined, calls)
        case Some(status) => GetResult(Value(status), calls)
  }

  /** With a peripheral that echoes writes, reading back after `setOn(on)` reports `on`. */
  lemma SetThenGetRoundTrip(s: Session, on: bool, write: WriteOutcome)
    requires Ready(s)
    ensures var t := SetOn(s, on, write);
      GetOnIntended(t.session, ReadResolved(t.calls[0].data)).value == Value(on)
  {
  }

  /** As written, the same round trip reports off after switching on. */
  lemma SetThenGetAsWrittenLosesOn(s: Session, write: WriteOutcome)
    requires Ready(s)
    ensures var t := SetOn(s, true, write);
      GetOn(t.session, ReadResolved(t.calls[0].data)).value == Value(false)
  {
  }

  /** `onData`: only notifications are pushed to HomeKit, decoded from byte 0. */
  function OnData(data: seq<Byte>, isNotification: bool): (r: DataOutcome)
    ensures !isNotification ==> r == Ignored
    ensures isNotification ==> (r == Rejected <==> |data| == 0)
    ensures forall on: bool :: r == Pushed(on) <==> isNotification && DecodeSwitch(data) == Some(on)
  {
    if !isNotification then Ignored
    else
      match DecodeSwitch(data)
      case None => Rejected
      case Some(on) => Pushed(on)
  }

  /** A notification carrying the byte written for `on` pushes exactly `on`. */
  lemma NotificationRoundTrip(on: bool)
    ensures OnData(EncodeSwitch(on), true) == Pushed(on)
  {
  }

  /** An event delivered to the accessory. The library sets the peripheral's state before
      it emits 'connect'; `stateNow` is that state. */
  datatype Event =
    | Disconnect
    | Connect(stateNow: PeripheralState, discovery: DiscoveryOutcome)
    | Tick(timer: Timer, env: ConnectEnv)
    | SetRequest(on: bool, write: WriteOutcome)
    | GetRequest(read: ReadOutcome)
    | Notification(data: seq<Byte>, isNotification: bool)

  function Step(s: Session, e: Event): Session {
    match e
    case Disconnect => OnDisconnect(s)
    case Connect(now, d) => OnConnect(s.(state := now), d).session
    case Tick(t, env) => OnTick(s, t, env).session
    case SetRequest(on, w) => SetOn(s, on, w).session
    case GetRequest(_) => s
    case Notification(_, _) => s
  }

  function Run(s: Session, es: seq<Event>): Session
    decreases |es|
  {
    if |es| == 0 then s else Run(Step(s, es[0]), es[1..])
  }

  lemma StepPreservesInv(s: Session, e: Event)
    requires Inv(s)
    ensures Inv(Step(s, e))
  {
  }

  lemma {:induction false} RunPreservesInv(s: Session, es: seq<Event>)
    requires Inv(s)
    ensures Inv(Run(s, es))
    decreases |es|
  {
    if |es| > 0 {
      StepPreservesInv(s, es[0]);
      RunPreservesInv(Step(s, es[0]), es[1..]);
    }
  }

  /** No event changes which peripheral the session drives or which characteristic id it
      binds, so every later discovery compares against the configured id. */
  lemma {:induction false} RunKeepsConfig(s: Session, es: seq<Event>)
    ensures Run(s, es).peripheral == s.peripheral
    ensures Run(s, es).characteristicId == s.characteristicId
    decreases |es|
  {
    if |es| > 0 {
      RunKeepsConfig(Step(s, es[0]), es[1..]);
    }
  }

  /** Whatever events follow construction, at most one reconnect interval is live and it
      is the one the reconnect field holds; at most one data listener is attached. */
  lemma AtMostOneReconnectTimer(peripheral: nat, characteristicId: string, initial: PeripheralState, env: ConnectEnv, es: seq<Event>)
    ensures var s := Run(Create(peripheral, characteristicId, initial, env).session, es);
      |s.live| <= 1 && (forall t :: t in s.live ==> s.reconnect == Some(t)) && |s.listeners| <= 1
  {
    var s0 := Create(peripheral, characteristicId, initial, env).session;
    RunPreservesInv(s0, es);
  }
}

=== FILE: uuid.dfy ===
/**
  Identifier normalisation as the plugin applies it to configured service and
  characteristic ids before comparing them with the ids the BLE library
  reports: every `-` is removed, then the string is lower-cased. Lower-casing
  is modelled for ASCII letters only.
 */
module Uuid {
  import opened Wrappers

  predicate IsUpper(c: char) {
    'A' <= c <= 'Z'
  }

  /** ASCII lower-casing of one character; every other character is unchanged. */
  function ToLower(c: char): (r: char)
    ensures !IsUpper(r)
    ensures IsUpper(c) ==> r as int == c as int + 32
    ensures !IsUpper(c) ==> r == c
  {
    if IsUpper(c) then (c as int + 32) as char else c
  }

  /** `s.replace(/-/g, '')`: the characters of `s` other than `-`, in order. */
  function StripHyphens(s: string): (r: string)
    ensures forall i :: 0 <= i < |r| ==> r[i] != '-'
    ensures multiset(r) == multiset(s)['-' := 0]
    ensures |r| <= |s|
  {
    if |s| == 0 then ""
    else
      assert s == [s[0]] + s[1..];
      (if s[0] == '-' then "" else [s[0]]) + StripHyphens(s[1..])
  }

  /** `s.toLowerCase()`, restricted to ASCII letters. */
  function LowerAscii(s: string): (r: string)
    ensures |r| == |s|
    ensures forall i :: 0 <= i < |s| ==> r[i] == ToLower(s[i])
  {
    seq(|s|, i requires 0 <= i < |s| => ToLower(s[i]))
  }

  /** `id.replace(/-/g, '').toLowerCase()`. */
  function Normalize(id: string): (r: string)
    ensures forall i :: 0 <= i < |r| ==> r[i] != '-' && !IsUpper(r[i])
    ensures |r| == |StripHyphens(id)| && |r| <= |id|
  {
    LowerAscii(StripHyphens(id))
  }

  /** A string that normalisation leaves alone: no hyphen and no upper-case letter. */
  predicate IsNormal(s: string) {
    forall i :: 0 <= i < |s| ==> s[i] != '-' && !IsUpper(s[i])
  }

  /** A configured id matches a reported id iff its normalisation equals it exactly. */
  predicate SameId(configured: string, reported: string) {
    Normalize(configured) == reported
  }

  lemma NormalizeIsNormal(id: string)
    ensures IsNormal(Normalize(id))
  {
  }

  lemma {:induction false} StripHyphensConcat(a: string, b: string)
    ensures StripHyphens(a + b) == StripHyphens(a) + StripHyphens(b)
    decreases |a|
  {
    if |a| == 0 {
      assert a + b == b;
    } else {
      assert (a + b)[1..] == a[1..] + b;
      StripHyphensConcat(a[1..], b);
    }
  }

  lemma {:induction false} StripHyphensOfNoHyphen(s: string)
    requires forall i :: 0 <= i < |s| ==> s[i] != '-'
    ensures StripHyphens(s) == s
    decreases |s|
  {
    if |s| > 0 {
      StripHyphensOfNoHyphen(s[1..]);
    }
  }

  lemma LowerAsciiConcat(a: string, b: string)
    ensures LowerAscii(a + b) == LowerAscii(a) + LowerAscii(b)
  {
    var l, r := LowerAscii(a + b), LowerAscii(a) + LowerAscii(b);
    assert |l| == |r|;
    forall i | 0 <= i < |l|
      ensures l[i] == r[i]
    {
      if i < |a| {
        assert (a + b)[i] == a[i];
      } else {
        assert (a + b)[i] == b[i - |a|];
      }
    }
  }

  /** Normalisation distributes over concatenation: it works character by character. */
  lemma NormalizeConcat(a: string, b: string)
    ensures Normalize(a + b) == Normalize(a) + Normalize(b)
  {
    StripHyphensConcat(a, b);
    LowerAsciiConcat(StripHyphens(a), StripHyphens(b));
  }

  /** Normalisation fixes exactly the normal strings. */
  lemma NormalizeFixedPoint(s: string)
    ensures Normalize(s) == s <==> IsNormal(s)
  {
    if IsNormal(s) {
      StripHyphensOfNoHyphen(s);
    } else {
      NormalizeIsNormal(s);
    }
  }

  /** Normalising twice is normalising once. */
  lemma NormalizeIdempotent(id: string)
    ensures Normalize(Normalize(id)) == Normalize(id)
  {
    NormalizeIsNormal(id);
    NormalizeFixedPoint(Normalize(id));
  }

  lemma StripLowerCommuteChar(c: char)
    ensures LowerAscii(StripHyphens([c])) == StripHyphens(LowerAscii([c]))
  {
    assert [c][1..] == [];
    assert LowerAscii([c]) == [ToLower(c)];
    assert [ToLower(c)][1..] == [];
  }

  lemma {:induction false} StripLowerCommute(s: string)
    ensures LowerAscii(StripHyphens(s)) == StripHyphens(LowerAscii(s))
    decreases |s|
  {
    if |s| > 0 {
      var c, t := s[0], s[1..];
      assert s == [c] + t;
      StripLowerCommute(t);
      StripHyphensConcat([c], t);
      LowerAsciiConcat(StripHyphens([c]), StripHyphens(t));
      LowerAsciiConcat([c], t);
      StripHyphensConcat(LowerAscii([c]), LowerAscii(t));
      StripLowerCommuteChar(c);
    }
  }

  /** Because lower-casing never creates or removes a hyphen, the order of the two steps
      does not matter. */
  lemma NormalizeOrderIrrelevant(id: string)
    ensures Normalize(id) == StripHyphens(LowerAscii(id))
  {
    StripLowerCommute(id);
  }

  /** A reported id that contains a hyphen or an upper-case letter never matches any
      configured id. */
  lemma OnlyNormalIdsMatch(configured: string, reported: string)
    ensures SameId(configured, reported) ==> IsNormal(reported)
  {
    NormalizeIsNormal(configured);
  }

  /** Index of the first element of `xs` equal to `target`: the `for ... break` search. */
  function FirstIndex(xs: seq<string>, target: string): (r: Option<nat>)
    ensures r.Some? ==> r.value < |xs| && xs[r.value] == target
    ensures r.Some? ==> forall j :: 0 <= j < r.value ==> xs[j] != target
    ensures r.None? <==> target !in xs
    decreases |xs|
  {
    if |xs| == 0 then None
    else if xs[0] == target then Some(0)
    else
      match FirstIndex(xs[1..], target)
      case None => assert xs == [xs[0]] + xs[1..]; None
      case Some(i) => Some(i + 1)
  }
}

=== FILE: wrappers.dfy ===
/** `Option`, the model's stand-in for JavaScript's `null` and `undefined`. */
module Wrappers {

  /** A value that may be absent: JavaScript's `null`/`undefined` made explicit. */
  datatype Option<+T> = None | Some(value: T) {

    /** The value, or `default` when absent. */
    function GetOr(default: T): T {
      match this
      case Some(v) => v
      case None => default
    }
  }
}
